=== FILE: README.md ===
# Windows wallpaper back end, modelled in Dafny

This project models the Windows back end of the `wallpaper` Go package (`windows.go`): reading the
current desktop wallpaper (`Get`), setting it from a file (`SetFromFile`), and setting the display
mode (`SetMode`). It also models the lock-screen policy check (`checkRegistryValues`) and the
lock-screen write (`setLockscreen`) with its elevation handshake.

The Windows registry is an abstract store (`Registry.Hives`): a map from key (root key and path) to
the typed values the key holds. Failures of `CreateKey` and `SetStringValue`/`SetDWordValue` come
from an error oracle (`Registry.Faults`). A string holding NUL is refused as invalid, the EINVAL
that Go's wide-string conversion reports. The answers of calls the model does not look into are
inputs, bundled in `Windows.Env`:
- `isAdmin`, that is, whether `net session` succeeds;
- `os.Executable` and whether the elevated `Start-Process` succeeds;
- whether the system takes the new wallpaper.

Calls that reach outside the process are recorded as `Windows.Effect` values: the
`SystemParametersInfoW` set call with its action, parameter and flags, and the elevated relaunch.
An operation's outcome is either a returned error value (`Returned`) or the end of the process
with an exit status (`Exited`): `os.Exit(0)` after a relaunch, status 1 for `log.Fatalf`.

Layout:
- `wrappers.dfy`: `Option`.
- `registry.dfy`: the store, its reads (`GetStringValue` accepts REG_SZ and REG_EXPAND_SZ;
  `GetIntegerValue` accepts REG_DWORD and REG_QWORD), single calls (`ApplyOp`), and ordered runs
  of calls that stop at the first error (`RunOps`).
- `display_mode.dfy`: the six modes, the `TileWallpaper`/`WallpaperStyle` encoding, and its
  inverse `ModeOf`.
- `lock_screen.dfy`: the expected-values table, the predicate the check decides (`Configured`),
  and the calls `setLockscreen` makes (`WriteOps`, in two blocks: `PolicyOps` and `CspOps`).
- `windows.dfy`: each operation as a function on a `World` value (`SetFromFileStep`,
  `SetModeStep`, ...). The class `Host` holds the same state in fields and carries out each
  operation step by step, with early returns as in the Go code. Each of its methods is proved to
  end in the state and outcome that the matching function gives.

Three points in the code that the model reproduces:
- `runAsAdmin` always ends the process: `log.Fatalf` at windows.go:47 and 54, or `os.Exit(0)` at
  windows.go:57. So `setLockscreen` without elevation never returns, `SetFromFile` hands no nil
  error back in that case, and the `return nil` at windows.go:117 is dead code.
- A lock-screen error is returned at windows.go:159-161, before the wallpaper call, so the
  wallpaper is not changed when the lock-screen write fails.
- `Get` trims NULs from both ends of the buffer (windows.go:71), not only the trailing padding.

## Model

| member | source | states |
|---|---|---|
| `Registry.GetStringValue` | windows.go:98 | A string read succeeds exactly on a present REG_SZ or REG_EXPAND_SZ value and returns its contents. |
| `Registry.GetIntegerValue` | windows.go:103 | An integer read succeeds exactly on a present REG_DWORD or REG_QWORD value. It returns a 64-bit value, and a REG_DWORD or REG_QWORD reads as its own number. |
| `Registry.ApplyOp` | windows.go:121-211 | A refused create or write returns its error and leaves the store unchanged. |
| `Registry.ApplyOpEffect` | windows.go:121-145 | A successful write stores its value (REG_SZ or REG_DWORD) in its own slot and changes no other value. A call adds at most its own key. |
| `Registry.RunOps` | windows.go:121-146 | A run of calls with an early `return err` after each never removes a key. |
| `Registry.RunOpsAppend` | windows.go:121-146 | Running calls a then b equals running a, then b on a's result unless a failed: each early `return err` ends the run. |
| `Registry.RunOpsFirstFailure` | windows.go:121-146 | A failed run returns the error of its first failing call. Exactly the calls before that one have been applied. |
| `Registry.RunOpsFrame` | windows.go:121-146 | A run changes no value its calls do not write. It adds only keys its calls name. |
| `Registry.RunOpsLastWrite` | windows.go:121-146 | After a run that did not fail, a value holds what the last call writing it stored. |
| `DisplayMode.TileFlag` | windows.go:182-187 | TileWallpaper is "0" or "1", and it is "1" exactly for Tile. |
| `DisplayMode.StyleCode` | windows.go:193-207 | WallpaperStyle is one of "0", "2", "6", "10", "22", and it is "0" exactly for Center and Tile. |
| `DisplayMode.ModeOfEncoding` | windows.go:182-207 | Every mode is read back from its own pair. TileWallpaper is "1" for Tile and "0" otherwise. WallpaperStyle is "0" for Center and Tile, "6" Fit, "22" Span, "2" Stretch, "10" Crop. |
| `DisplayMode.EncodingOfMode` | windows.go:182-207 | Any (TileWallpaper, WallpaperStyle) pair that reads back as mode m is exactly m's encoding. No other pair is ever produced. |
| `DisplayMode.EncodingsDistinct` | windows.go:193-207 | Center and Tile are the only modes sharing a style code, and the tile flag separates them. No two modes have the same encoding. |
| `LockScreen.ExpectedValues` | windows.go:75-84 | The table has the two HKLM key paths. The Personalization key expects LockScreenImage. The PersonalizationCSP key expects LockScreenImageStatus, LockScreenImagePath and LockScreenImageUrl. Status expects the integer 1, and every other entry expects the file name. |
| `LockScreen.Configured` | windows.go:74-112 | When the check holds, both lock-screen keys exist, since a key that fails to open answers false. |
| `LockScreen.WriteOps` | windows.go:121-145 | Every call made by the elevated lock-screen write touches one of the two lock-screen keys. Every write targets one of the four lock-screen values, and every string written is the file name. |
| `LockScreen.ConfiguredIff` | windows.go:74-112 | The check holds iff four values hold. LockScreenImage under Personalization reads as the string f. Under PersonalizationCSP, LockScreenImageStatus reads as integer 1 and LockScreenImagePath and LockScreenImageUrl read as f. A missing key or value, or a wrong type, makes it false. |
| `LockScreen.WriteEstablishesCheck` | windows.go:120-146 | When all six calls of the elevated lock-screen write succeed, the check for the same file holds afterwards. |
| `LockScreen.WriteFrame` | windows.go:120-146 | The lock-screen write changes no value other than the four lock-screen values. In the flat key store it can add only the two lock-screen keys. |
| `Windows.WallpaperBuffer` | windows.go:63-70 | The buffer holds 256 units: the path where it reaches, and NUL everywhere else. |
| `Windows.TrimNul` | windows.go:71 | The buffer is NUL padding, then the result, then NUL padding. The result neither starts nor ends with NUL. |
| `Windows.TrimNulOfPadded` | windows.go:71 | Trimming undoes NUL padding around a string that has no NUL at either end. |
| `Windows.GetResult` | windows.go:61-72 | Get's result has at most 256 units and no NUL at either end. |
| `Windows.GetRoundTrip` | windows.go:61-72 | A wallpaper path of at most 256 units with no NUL is read back unchanged. |
| `Windows.LongPathTruncated` | windows.go:62-71 | A NUL-free wallpaper path longer than 256 units is read back as its first 256 units. |
| `Windows.RunAsAdminStep` | windows.go:44-58 | The relaunch never touches the registry or the wallpaper. It always ends the process, with status 0 exactly when the executable path was found and the elevated start succeeded. |
| `Windows.SetLockscreenStep` | windows.go:114-147 | setLockscreen never changes the wallpaper. It returns exactly when elevated, and then it makes no outside call. Otherwise it ends the process without writing the registry. |
| `Windows.DeskWallpaperSet` | windows.go:164-169 | The wallpaper call leaves the store alone. It is logged as SystemParametersInfoW(0x14, 0, path, 3). The reported wallpaper changes only to the path, and only when the system applies it. |
| `Windows.SetFromFileStep` | windows.go:150-172 | SetFromFile ends the process exactly when the path has no NUL, the check fails and there is no elevation. The wallpaper changes only on a nil return the system applied, and then to the path. At most one outside call is added. |
| `Windows.SetFromFileWriteSucceeds` | windows.go:156-171 | When elevated and all six lock-screen calls succeed, SetFromFile returns nil and makes exactly the wallpaper call. This holds whatever the check found. |
| `Windows.OutcomeIgnoresSpi` | windows.go:164-171 | The wallpaper call's result is ignored: whether the system takes the wallpaper changes neither the outcome, nor the store, nor the calls made. |
| `Windows.SetFromFileSuccess` | windows.go:150-172 | A nil return means the path has no NUL and the lock-screen check holds afterwards. Exactly one call was made: SPI_SETDESKWALLPAPER with flags 0x01 and 0x02. |
| `Windows.ConfiguredSkipsLockScreen` | windows.go:156-162 | When the check already holds, SetFromFile does not consult elevation and leaves the store as it was. It makes only the wallpaper call. |
| `Windows.SecondCallWriteFree` | windows.go:156-171 | After a call that returned nil, a second call with the same path returns nil and writes nothing to the store, elevated or not. |
| `Windows.UnelevatedRelaunches` | windows.go:114-118 | Without elevation, when the values need writing, the process ends after requesting a relaunch. Nothing is written and the wallpaper call is not made. |
| `Windows.SetFromFileError` | windows.go:151-161 | An error is either the encoding error, with nothing touched, or the first failing lock-screen call's error, with earlier writes kept. In both cases no wallpaper call is made. |
| `Windows.SetFromFileFrame` | windows.go:150-172 | SetFromFile changes no value in the store other than the four lock-screen values. |
| `Windows.SetFromFileThenGet` | windows.go:164-171 | After a nil return that the system applied, Get returns the same path, for paths of at most 256 units. |
| `Windows.ModeOps` | windows.go:176-211 | Every call goes to HKCU\Control Panel\Desktop. Every write is a string to TileWallpaper or WallpaperStyle, and what it writes decodes back to the mode. |
| `Windows.SetModeStep` | windows.go:175-220 | SetMode can end the process only without elevation. It changes the wallpaper only through a nil return that the system applied. |
| `Windows.SetModeWritesEncoding` | windows.go:176-219 | Once the create and both writes succeed, the desktop values hold the mode's tile flag and style code and read back as that mode. This holds whatever the re-applied SetFromFile then does. |
| `Windows.ModeOpsFailure` | windows.go:176-211 | When one of the desktop calls fails, WallpaperStyle keeps its value. TileWallpaper holds the new flag exactly when the WallpaperStyle write failed, and keeps its value otherwise. No other value changes. |
| `Windows.SetModeStopsAtFirstFailure` | windows.go:176-211 | A failing SetMode returns that error and makes no other call. WallpaperStyle is never changed. TileWallpaper holds the new flag exactly when the WallpaperStyle write is the one that failed, and is unchanged otherwise. Every other value in the store is unchanged. |
| `Windows.SetModeFrame` | windows.go:175-220 | On every path, SetMode changes no value in the store besides TileWallpaper, WallpaperStyle and the four lock-screen values the re-applied SetFromFile may write. |
| `Windows.Host.Apply` | windows.go:121-211 | A registry call on the host's store changes the store as ApplyOp says and nothing else. |
| `Windows.Host.ReadDeskWallpaper` | windows.go:63-70 | The SPI_GETDESKWALLPAPER call fills the zeroed 256-unit buffer with the reported path, cut to 256 units. |
| `Windows.Host.Get` | windows.go:61-72 | Get never returns an error. Its result has at most 256 units, no NUL at either end, and equals GetResult of the host's state. |
| `Windows.Host.CheckRegistryValues` | windows.go:74-112 | For every iteration order of the table, the nested loop with early `return false` answers exactly Configured. |
| `Windows.Host.RunAsAdmin` | windows.go:44-58 | Ends in the state and exit status that RunAsAdminStep gives. |
| `Windows.Host.SetLockscreen` | windows.go:114-147 | The step-by-step write ends in the state and outcome that SetLockscreenStep gives: the relaunch when not elevated, otherwise the six calls stopping at the first error. |
| `Windows.Host.SetPolicyValue` | windows.go:120-128 | Creating the Personalization key and writing LockScreenImage, with early returns, ends as RunOps of those two calls. |
| `Windows.Host.SetCspValues` | windows.go:130-146 | Creating the PersonalizationCSP key and its three writes, with early returns, end as RunOps of those four calls. |
| `Windows.Host.SetDeskWallpaper` | windows.go:164-169 | The wallpaper call is recorded. The reported wallpaper changes when the system applies it. |
| `Windows.Host.SetFromFile` | windows.go:150-172 | Ends in the state and outcome that SetFromFileStep gives. |
| `Windows.Host.SetMode` | windows.go:175-220 | Ends in the state and outcome that SetModeStep gives. After both writes succeed, that is exactly what SetFromFile of Get's result gives on the updated store. |

## Left out

- The `panic("invalid wallpaper mode")` arm of the style switch: `Mode` is a closed datatype of six modes, so no other value reaches `SetMode`. The file that declares `Mode` is not part of this model.
- The Win32 system calls themselves (`SystemParametersInfoW` loaded from user32.dll). The set call is a recorded effect whose result is ignored, as in the code. The get call is assumed to copy at most 256 units of the current wallpaper path into the zeroed buffer.
- `Windows.DeskWallpaperSet`: when the system takes a new wallpaper, the model assumes SPI_GETDESKWALLPAPER then reports exactly the path that was passed. The system could normalise the path or report a substituted copy of the image, and the model does not capture that. `Windows.SetFromFileThenGet` rests on this assumption. With SPIF_UPDATEINIFILE the system also persists the path as the `Wallpaper` value under `HKCU\Control Panel\Desktop`, the key `SetMode` writes. The model holds that path as `World.wallpaper`, not in the store. So `DeskWallpaperSet`, `Windows.SetFromFileFrame`, `Windows.SetModeFrame`, `Windows.SecondCallWriteFree` and `Windows.ConfiguredSkipsLockScreen` speak of the store only, not of that value.
- UTF-16 encoding and decoding (`UTF16PtrFromString`, `utf16.Decode`): paths are character sequences, and the only encoding failure modelled is the NUL that Go rejects.
- `isAdmin` and `runAsAdmin` as subprocesses: their answers are inputs. What the relaunched process does is not modelled. It is started without the original arguments.
- Windows' case-insensitive matching of key paths and value names: the store compares them exactly.
- Parent keys: the store holds keys flat, each under its full path. `registry.CreateKey` also creates every missing key along the path, for example `SOFTWARE\Policies\Microsoft\Windows` or `Control Panel`, and the model does not. So the key-set clauses of `Registry.RunOpsFrame`, `LockScreen.WriteFrame` and `Registry.ApplyOpEffect` speak of the flat store only.
- `Windows.SecondCallWriteFree`: holds for paths that are valid UTF-8. A Go string that is not valid UTF-8 is stored with U+FFFD in place of each bad byte, since the registry library converts it with UTF16FromString. It then reads back different, so `checkRegistryValues` never holds for it and every call enters `setLockscreen` again. The model stores strings as given, so it does not show this.
- Registry read failures other than a missing key, a missing value or a value of the wrong type, such as access denied on `OpenKey`. Closing keys is also left out.
- `Windows.Host.SetFromFile`: it runs the check in one fixed iteration order, while Go's map order varies. `Windows.Host.CheckRegistryValues` is proved to give the same answer for every order.
- String values containing NUL: string values are held as the registry library reads them back, so its truncation at the first NUL is not modelled.
- `getCacheDir`, `SetFromURL`, the other platform back ends and desktop-environment detection: they are not part of this model.
- Concurrent callers: the model is single-threaded, like the code.

=== FILE: display_mode.dfy ===
/**
 * The mode mapper: how each display mode is encoded in the two values under
 * HKCU\Control Panel\Desktop, TileWallpaper and WallpaperStyle.
 */
module DisplayMode {
  import opened Wrappers

  /** The closed set of display modes. */
  datatype Mode = Center | Crop | Fit | Span | Stretch | Tile

  /** The TileWallpaper value: "1" for Tile, "0" for every other mode. */
  function TileFlag(m: Mode): (flag: string)
    ensures flag == "0" || flag == "1"
    ensures flag == "1" <==> m == Tile
  {
    if m == Tile then "1" else "0"
  }

  /** The WallpaperStyle value: Center and Tile share "0"; every other mode has a code of its own. */
  function StyleCode(m: Mode): (code: string)
    ensures code in {"0", "2", "6", "10", "22"}
    ensures code == "0" <==> m == Center || m == Tile
  {
    match m
    case Center | Tile => "0"
    case Fit => "6"
    case Span => "22"
    case Stretch => "2"
    case Crop => "10"
  }

  /** Reads a mode back from the two values; None when they encode no mode. */
  function ModeOf(tile: string, style: string): Option<Mode>
  {
    if tile == "1" then
      if style == "0" then Some(Tile) else None
    else if tile == "0" then
      if style == "0" then Some(Center)
      else if style == "6" then Some(Fit)
      else if style == "22" then Some(Span)
      else if style == "2" then Some(Stretch)
      else if style == "10" then Some(Crop)
      else None
    else None
  }

  /** Every mode is read back from its own encoding. */
  lemma ModeOfEncoding(m: Mode)
    ensures ModeOf(TileFlag(m), StyleCode(m)) == Some(m)
  {
  }

  /** Whatever reads back as a mode is exactly that mode's encoding. */
  lemma EncodingOfMode(tile: string, style: string, m: Mode)
    requires ModeOf(tile, style) == Some(m)
    ensures tile == TileFlag(m) && style == StyleCode(m)
  {
  }

  /**
   * Center and Tile are the only modes that share a style code, and the tile flag
   * tells them apart: no two modes have the same encoding.
   */
  lemma EncodingsDistinct(m1: Mode, m2: Mode)
    requires m1 != m2
    ensures StyleCode(m1) == StyleCode(m2) ==> {m1, m2} == {Center, Tile}
    ensures TileFlag(m1) != TileFlag(m2) || StyleCode(m1) != StyleCode(m2)
  {
    ModeOfEncoding(m1);
    ModeOfEncoding(m2);
  }
}

=== FILE: lock_screen.dfy ===
/**
 * The lock-screen policy values under HKLM: the table checkRegistryValues compares
 * against, the predicate it decides, and the sequence of calls setLockscreen makes.
 */
module LockScreen {
  import opened Wrappers
  import opened Registry

  const PersonalizationPath: string := @"SOFTWARE\Policies\Microsoft\Windows\Personalization"
  const CspPath: string := @"SOFTWARE\Microsoft\Windows\CurrentVersion\PersonalizationCSP"

  const PersonalizationKey: KeyRef := KeyRef(LocalMachine, PersonalizationPath)
  const CspKey: KeyRef := KeyRef(LocalMachine, CspPath)

  const ImageSlot: Slot := Slot(PersonalizationKey, "LockScreenImage")
  const StatusSlot: Slot := Slot(CspKey, "LockScreenImageStatus")
  const PathSlot: Slot := Slot(CspKey, "LockScreenImagePath")
  const UrlSlot: Slot := Slot(CspKey, "LockScreenImageUrl")

  /** An expected value: a string, or an integer compared after widening to 64 bits. */
  datatype Expected = ExpectString(s: string) | ExpectInteger(n: nat)

  /** The expected-values table, keyed by HKLM key path and then by value name. */
  function ExpectedValues(filename: string): (table: map<string, map<string, Expected>>)
    ensures table.Keys == {PersonalizationPath, CspPath}
    ensures table[PersonalizationPath].Keys == {ImageSlot.name}
    ensures table[CspPath].Keys == {StatusSlot.name, PathSlot.name, UrlSlot.name}
    ensures forall path, name :: path in table && name in table[path] ==>
      table[path][name] == (if name == StatusSlot.name then ExpectInteger(1) else ExpectString(filename))
  {
    map[
      PersonalizationPath := map["LockScreenImage" := ExpectString(filename)],
      CspPath := map[
        "LockScreenImageStatus" := ExpectInteger(1),
        "LockScreenImagePath" := ExpectString(filename),
        "LockScreenImageUrl" := ExpectString(filename)]]
  }

  /** A value read through an opened key meets its expectation; a read error never does. */
  predicate Matches(values: map<string, Value>, name: string, e: Expected)
  {
    match e
    case ExpectString(s) => GetStringValue(values, name) == Some(s)
    case ExpectInteger(n) => GetIntegerValue(values, name) == Some(n)
  }

  /** The key opens and every value it is expected to hold matches. */
  predicate KeyMatches(h: Hives, path: string, want: map<string, Expected>)
  {
    var key := KeyRef(LocalMachine, path);
    key in h && forall name :: name in want ==> Matches(h[key], name, want[name])
  }

  /** What checkRegistryValues decides: every key of the table matches. */
  predicate Configured(h: Hives, filename: string)
    ensures Configured(h, filename) ==> PersonalizationKey in h && CspKey in h
  {
    var table := ExpectedValues(filename);
    forall path :: path in table ==> KeyMatches(h, path, table[path])
  }

  /** The check holds exactly when the four lock-screen values hold the expected typed contents. */
  lemma ConfiguredIff(h: Hives, filename: string)
    ensures Configured(h, filename) <==>
      && StringAt(h, ImageSlot) == Some(filename)
      && IntegerAt(h, StatusSlot) == Some(1)
      && StringAt(h, PathSlot) == Some(filename)
      && StringAt(h, UrlSlot) == Some(filename)
  {
    var table := ExpectedValues(filename);
    SlotsDistinct();
    assert table[PersonalizationPath] == map["LockScreenImage" := ExpectString(filename)];
    assert "LockScreenImage" in table[PersonalizationPath];
    assert table[CspPath]["LockScreenImageStatus"] == ExpectInteger(1);
    assert table[CspPath]["LockScreenImagePath"] == ExpectString(filename);
    assert table[CspPath]["LockScreenImageUrl"] == ExpectString(filename);
    if Configured(h, filename) {
      assert KeyMatches(h, PersonalizationPath, table[PersonalizationPath]);
      assert KeyMatches(h, CspPath, table[CspPath]);
      assert Matches(h[PersonalizationKey], "LockScreenImage", ExpectString(filename));
      assert Matches(h[CspKey], "LockScreenImageStatus", ExpectInteger(1));
      assert Matches(h[CspKey], "LockScreenImagePath", ExpectString(filename));
      assert Matches(h[CspKey], "LockScreenImageUrl", ExpectString(filename));
    }
  }

  /** The calls setLockscreen makes once elevated, in order. */
  function WriteOps(filename: string): (ops: seq<Op>)
    ensures forall i :: 0 <= i < |ops| ==> KeyOf(ops[i]) in {PersonalizationKey, CspKey}
    ensures forall i :: 0 <= i < |ops| && !ops[i].CreateKey? ==> ops[i].slot in {ImageSlot, StatusSlot, PathSlot, UrlSlot}
    ensures forall i :: 0 <= i < |ops| && ops[i].SetString? ==> ops[i].s == filename
  {
    PolicyOps(filename) + CspOps(filename)
  }

  /** The first block of WriteOps: the Personalization policy key and its image value. */
  function PolicyOps(filename: string): seq<Op>
  {
    [CreateKey(PersonalizationKey), SetString(ImageSlot, filename)]
  }

  /** The second block of WriteOps: the PersonalizationCSP key and its three values. */
  function CspOps(filename: string): seq<Op>
  {
    [CreateKey(CspKey), SetDWord(StatusSlot, 1), SetString(PathSlot, filename), SetString(UrlSlot, filename)]
  }

  /** The four lock-screen values live in four different places. */
  lemma SlotsDistinct()
    ensures PersonalizationKey != CspKey
    ensures ImageSlot.key != StatusSlot.key == PathSlot.key == UrlSlot.key
    ensures StatusSlot != PathSlot && StatusSlot != UrlSlot && PathSlot != UrlSlot
  {
    assert |PersonalizationPath| != |CspPath|;
    assert |StatusSlot.name| == 21 && |PathSlot.name| == 19 && |UrlSlot.name| == 18;
  }

  /** A write that runs to the end makes the check hold for the same file name. */
  lemma WriteEstablishesCheck(h: Hives, faults: Faults, filename: string)
    requires RunOps(h, faults, WriteOps(filename)).err == None
    ensures Configured(RunOps(h, faults, WriteOps(filename)).hives, filename)
  {
    var ops := WriteOps(filename);
    SlotsDistinct();
    RunOpsLastWrite(h, faults, ops, 1, ImageSlot);
    RunOpsLastWrite(h, faults, ops, 3, StatusSlot);
    RunOpsLastWrite(h, faults, ops, 4, PathSlot);
    RunOpsLastWrite(h, faults, ops, 5, UrlSlot);
    ConfiguredIff(RunOps(h, faults, ops).hives, filename);
  }

  /**
   * The write changes no value besides the four lock-screen values, and the only
   * keys it can add are the two lock-screen keys.
   */
  lemma WriteFrame(h: Hives, faults: Faults, filename: string, s: Slot)
    requires s !in {ImageSlot, StatusSlot, PathSlot, UrlSlot}
    ensures Lookup(RunOps(h, faults, WriteOps(filename)).hives, s) == Lookup(h, s)
    ensures h.Keys <= RunOps(h, faults, WriteOps(filename)).hives.Keys <= h.Keys + {PersonalizationKey, CspKey}
  {
    var ops := WriteOps(filename);
    RunOpsFrame(h, faults, ops, s);
    forall k | k in RunOps(h, faults, ops).hives
      ensures k in h.Keys + {PersonalizationKey, CspKey}
    {
      if k !in h {
        var i :| 0 <= i < |ops| && KeyOf(ops[i]) == k;
      }
    }
  }
}

=== FILE: registry.dfy ===
/**
 * The Windows registry as the wallpaper back end sees it: an abstract store from
 * (root key, key path, value name) to a typed value. Opening, creating and writing
 * go through an error oracle (Faults) that says which operations the operating
 * system refuses; a refused operation leaves the store as it was.
 */
module Registry {
  import opened Wrappers

  type uint32 = n: nat | n < 0x1_0000_0000
  type uint64 = n: nat | n < 0x1_0000_0000_0000_0000

  const NUL: char := '\0'

  /** The two root keys the back end touches. */
  datatype Hive = LocalMachine | CurrentUser

  /** A registry key: a root key and the backslash-separated path below it. */
  datatype KeyRef = KeyRef(hive: Hive, path: string)

  /** A named value inside a key. */
  datatype Slot = Slot(key: KeyRef, name: string)

  /** A typed registry value; string values are held as the registry library reads them back. */
  datatype Value =
    | Sz(s: string)            // REG_SZ
    | ExpandSz(s: string)      // REG_EXPAND_SZ
    | DWord(d: uint32)         // REG_DWORD
    | QWord(q: uint64)         // REG_QWORD
    | Binary(bytes: seq<bv8>)  // REG_BINARY and every other type

  /** Every existing key with the values it holds. */
  type Hives = map<KeyRef, map<string, Value>>

  datatype Error =
    | InvalidArgument             // a string holding NUL cannot be made a wide string (EINVAL)
    | CreateKeyFailed(key: KeyRef)
    | SetValueFailed(slot: Slot)

  /** The error oracle: the keys whose creation and the values whose writing the system refuses. */
  datatype Faults = Faults(create: set<KeyRef>, write: set<Slot>)

  /** The mutating registry calls the back end makes. */
  datatype Op =
    | CreateKey(key: KeyRef)             // registry.CreateKey: open, creating the key if missing
    | SetString(slot: Slot, s: string)   // Key.SetStringValue (REG_SZ)
    | SetDWord(slot: Slot, d: uint32)    // Key.SetDWordValue (REG_DWORD)

  /** The store after an operation (or a run of them) and the error that stopped it, if any. */
  datatype Applied = Applied(hives: Hives, err: Option<Error>)

  function Lookup(h: Hives, slot: Slot): Option<Value>
  {
    if slot.key in h && slot.name in h[slot.key] then Some(h[slot.key][slot.name]) else None
  }

  /** Key.GetStringValue: succeeds on REG_SZ and REG_EXPAND_SZ values only. */
  function GetStringValue(values: map<string, Value>, name: string): (r: Option<string>)
    ensures r.Some? <==> name in values && (values[name].Sz? || values[name].ExpandSz?)
    ensures r.Some? ==> r.value == values[name].s
  {
    if name !in values then None
    else match values[name]
      case Sz(s) => Some(s)
      case ExpandSz(s) => Some(s)
      case _ => None
  }

  /** Key.GetIntegerValue: succeeds on REG_DWORD and REG_QWORD values only. */
  function GetIntegerValue(values: map<string, Value>, name: string): (r: Option<nat>)
    ensures r.Some? <==> name in values && (values[name].DWord? || values[name].QWord?)
    ensures r.Some? ==> r.value < 0x1_0000_0000_0000_0000
    ensures r.Some? && values[name].DWord? ==> r.value == values[name].d
    ensures r.Some? && values[name].QWord? ==> r.value == values[name].q
  {
    if name !in values then None
    else match values[name]
      case DWord(d) => Some(d)
      case QWord(q) => Some(q)
      case _ => None
  }

  /** Reading a string through an opened key; a missing key reads as an error. */
  function StringAt(h: Hives, slot: Slot): Option<string>
  {
    if slot.key in h then GetStringValue(h[slot.key], slot.name) else None
  }

  /** Reading an integer through an opened key; a missing key reads as an error. */
  function IntegerAt(h: Hives, slot: Slot): Option<nat>
  {
    if slot.key in h then GetIntegerValue(h[slot.key], slot.name) else None
  }

  /** Writes one value, creating its key when needed; every other value is left alone. */
  function Store(h: Hives, slot: Slot, v: Value): (r: Hives)
    ensures Lookup(r, slot) == Some(v)
    ensures forall other :: other != slot ==> Lookup(r, other) == Lookup(h, other)
    ensures r.Keys == h.Keys + {slot.key}
  {
    var values := if slot.key in h then h[slot.key] else map[];
    h[slot.key := values[slot.name := v]]
  }

  function KeyOf(op: Op): KeyRef
  {
    match op
    case CreateKey(k) => k
    case SetString(slot, _) => slot.key
    case SetDWord(slot, _) => slot.key
  }

  /** Whether op writes the value at slot. */
  predicate Writes(op: Op, slot: Slot)
  {
    !op.CreateKey? && op.slot == slot
  }

  /** The value a writing call stores. */
  function WrittenValue(op: Op): Value
    requires !op.CreateKey?
  {
    if op.SetString? then Sz(op.s) else DWord(op.d)
  }

  /** One registry call; a refused call leaves the store as it was. */
  function ApplyOp(h: Hives, faults: Faults, op: Op): (r: Applied)
    ensures r.err.Some? ==> r.hives == h
  {
    match op
    case CreateKey(k) =>
      if k in faults.create then Applied(h, Some(CreateKeyFailed(k)))
      else if k in h then Applied(h, None)
      else Applied(h[k := map[]], None)
    case SetString(slot, s) =>
      if NUL in s then Applied(h, Some(InvalidArgument))
      else if slot in faults.write then Applied(h, Some(SetValueFailed(slot)))
      else Applied(Store(h, slot, Sz(s)), None)
    case SetDWord(slot, d) =>
      if slot in faults.write then Applied(h, Some(SetValueFailed(slot)))
      else Applied(Store(h, slot, DWord(d)), None)
  }

  /** A successful call changes its own slot only, storing its value there, and adds at most its own key. */
  lemma ApplyOpEffect(h: Hives, faults: Faults, op: Op)
    ensures var r := ApplyOp(h, faults, op);
      && (forall s :: !Writes(op, s) ==> Lookup(r.hives, s) == Lookup(h, s))
      && h.Keys <= r.hives.Keys <= h.Keys + {KeyOf(op)}
      && (r.err == None ==> KeyOf(op) in r.hives)
      && (r.err == None && !op.CreateKey? ==> Lookup(r.hives, op.slot) == Some(WrittenValue(op)))
  {
  }

  /** A run of registry calls in order, returning at the first error; earlier writes remain. */
  function RunOps(h: Hives, faults: Faults, ops: seq<Op>): (r: Applied)
    ensures h.Keys <= r.hives.Keys
    decreases |ops|
  {
    if ops == [] then Applied(h, None)
    else
      var first := ApplyOp(h, faults, ops[0]);
      if first.err.Some? then first else RunOps(first.hives, faults, ops[1..])
  }

  /** Running the calls from index k on: the call at k, then (if it succeeded) the rest. */
  lemma RunOpsAt(h: Hives, faults: Faults, ops: seq<Op>, k: nat)
    requires k < |ops|
    ensures RunOps(h, faults, ops[k..]) ==
      var a := ApplyOp(h, faults, ops[k]);
      if a.err.Some? then a else RunOps(a.hives, faults, ops[k + 1..])
  {
    assert ops[k..][0] == ops[k];
    assert ops[k..][1..] == ops[k + 1..];
  }

  /** Running a + b is running a and, if that did not fail, running b on what a left. */
  lemma {:induction false} RunOpsAppend(h: Hives, faults: Faults, a: seq<Op>, b: seq<Op>)
    ensures RunOps(h, faults, a + b) ==
      var ra := RunOps(h, faults, a);
      if ra.err.Some? then ra else RunOps(ra.hives, faults, b)
    decreases |a|
  {
    if a == [] {
      assert a + b == b;
    } else {
      assert (a + b)[0] == a[0];
      assert (a + b)[1..] == a[1..] + b;
      var first := ApplyOp(h, faults, a[0]);
      if first.err == None {
        RunOpsAppend(first.hives, faults, a[1..], b);
      }
    }
  }

  /**
   * A failed run returns the error of its first failing call, with exactly the
   * calls before it applied.
   */
  lemma {:induction false} RunOpsFirstFailure(h: Hives, faults: Faults, ops: seq<Op>)
    requires RunOps(h, faults, ops).err.Some?
    ensures exists i ::
      && 0 <= i < |ops|
      && RunOps(h, faults, ops[..i]).err == None
      && RunOps(h, faults, ops) == ApplyOp(RunOps(h, faults, ops[..i]).hives, faults, ops[i])
    decreases |ops|
  {
    var first := ApplyOp(h, faults, ops[0]);
    if first.err.Some? {
      assert ops[..0] == [];
      assert RunOps(h, faults, ops[..0]) == Applied(h, None);
    } else {
      var rest := ops[1..];
      RunOpsFirstFailure(first.hives, faults, rest);
      var j :| 0 <= j < |rest| && RunOps(first.hives, faults, rest[..j]).err == None
        && RunOps(first.hives, faults, rest) == ApplyOp(RunOps(first.hives, faults, rest[..j]).hives, faults, rest[j]);
      assert ops[..j + 1] == [ops[0]] + rest[..j];
      RunOpsAppend(h, faults, [ops[0]], rest[..j]);
      assert RunOps(h, faults, [ops[0]]) == first;
      assert RunOps(h, faults, ops[..j + 1]) == RunOps(first.hives, faults, rest[..j]);
      assert ops[j + 1] == rest[j];
    }
  }

  /** A run changes only the values its calls write, and adds only keys its calls name. */
  lemma {:induction false} RunOpsFrame(h: Hives, faults: Faults, ops: seq<Op>, s: Slot)
    requires forall i :: 0 <= i < |ops| ==> !Writes(ops[i], s)
    ensures Lookup(RunOps(h, faults, ops).hives, s) == Lookup(h, s)
    ensures h.Keys <= RunOps(h, faults, ops).hives.Keys
    ensures forall k :: k in RunOps(h, faults, ops).hives && k !in h ==> exists i :: 0 <= i < |ops| && KeyOf(ops[i]) == k
    decreases |ops|
  {
    if ops != [] {
      var first := ApplyOp(h, faults, ops[0]);
      ApplyOpEffect(h, faults, ops[0]);
      if first.err == None {
        assert !Writes(ops[0], s);
        forall i | 0 <= i < |ops[1..]| ensures !Writes(ops[1..][i], s) {
          assert ops[1..][i] == ops[i + 1];
        }
        RunOpsFrame(first.hives, faults, ops[1..], s);
        forall k | k in RunOps(h, faults, ops).hives && k !in h
          ensures exists i :: 0 <= i < |ops| && KeyOf(ops[i]) == k
        {
          if k in first.hives {
            assert KeyOf(ops[0]) == k;
          } else {
            var i :| 0 <= i < |ops[1..]| && KeyOf(ops[1..][i]) == k;
            assert ops[i + 1] == ops[1..][i];
          }
        }
      }
    }
  }

  /** After a run that did not fail, a value holds what the last call writing it stored. */
  lemma {:induction false} RunOpsLastWrite(h: Hives, faults: Faults, ops: seq<Op>, i: nat, s: Slot)
    requires RunOps(h, faults, ops).err == None
    requires i < |ops| && Writes(ops[i], s)
    requires forall j :: i < j < |ops| ==> !Writes(ops[j], s)
    ensures Lookup(RunOps(h, faults, ops).hives, s) == Some(WrittenValue(ops[i]))
    decreases i
  {
    var first := ApplyOp(h, faults, ops[0]);
    if i == 0 {
      ApplyOpEffect(h, faults, ops[0]);
      forall j | 0 <= j < |ops[1..]| ensures !Writes(ops[1..][j], s) {
        assert ops[1..][j] == ops[j + 1];
      }
      RunOpsFrame(first.hives, faults, ops[1..], s);
    } else {
      assert ops[1..][i - 1] == ops[i];
      forall j | i - 1 < j < |ops[1..]| ensures !Writes(ops[1..][j], s) {
        assert ops[1..][j] == ops[j + 1];
      }
      RunOpsLastWrite(first.hives, faults, ops[1..], i - 1, s);
    }
  }
}

=== FILE: windows.dfy ===
/**
 * The Windows accessor: Get, SetFromFile and SetMode. The host it runs on is the
 * registry, the desktop wallpaper the system reports, and a log of the calls that
 * reach outside the process (the wallpaper system call and the elevated relaunch).
 * The functions ending in Step say what each operation does to a World value; the
 * Host class carries out the same operations step by step and is proved to agree.
 */
module Windows {
  import opened Wrappers
  import opened Registry
  import opened DisplayMode
  import opened LockScreen

  // SystemParametersInfoW actions, parameter and flags.
  const SpiGetDeskWallpaper: bv32 := 0x0073
  const SpiSetDeskWallpaper: bv32 := 0x0014
  const UiParam: bv32 := 0x0000
  const SpifUpdateIniFile: bv32 := 0x01
  const SpifSendChange: bv32 := 0x02

  /** Capacity of the buffer Get hands to the system, in UTF-16 code units. */
  const BufferLength: nat := 256

  const DesktopKey: KeyRef := KeyRef(CurrentUser, @"Control Panel\Desktop")
  const TileSlot: Slot := Slot(DesktopKey, "TileWallpaper")
  const StyleSlot: Slot := Slot(DesktopKey, "WallpaperStyle")

  /** A call that leaves the process. */
  datatype Effect =
    | SystemParametersInfo(action: bv32, uiParam: bv32, path: string, winIni: bv32)
    | StartElevated(exe: string)  // powershell Start-Process <exe> -Verb RunAs

  /** What the back end can observe and change. */
  datatype World = World(hives: Hives, wallpaper: string, effects: seq<Effect>)

  /** An operation either returns (nil or an error) or ends the process with an exit status. */
  datatype Outcome = Returned(err: Option<Error>) | Exited(status: int)

  datatype Step = Step(world: World, outcome: Outcome)

  /** The answers of the calls the model does not look into. */
  datatype Env = Env(
    elevated: bool,              // isAdmin: whether `net session` succeeds
    executable: Option<string>,  // os.Executable
    runAsSucceeds: bool,         // whether the elevated Start-Process command succeeds
    faults: Faults,              // which registry creates and writes fail
    spiApplies: bool)            // whether the system takes the new desktop wallpaper

  /** SystemParametersInfoW(SPI_SETDESKWALLPAPER, 0, path, SPIF_UPDATEINIFILE | SPIF_SENDWININICHANGE). */
  function SetWallpaperCall(path: string): Effect
  {
    SystemParametersInfo(SpiSetDeskWallpaper, UiParam, path, SpifUpdateIniFile | SpifSendChange)
  }

  // ---------------------------------------------------------------- Get

  function Nuls(n: nat): (r: string)
    ensures |r| == n && forall i :: 0 <= i < n ==> r[i] == NUL
  {
    seq(n, _ => NUL)
  }

  predicate NoNulEdges(s: string)
  {
    s == [] || (s[0] != NUL && s[|s| - 1] != NUL)
  }

  /** The number of NULs s starts with. */
  function LeadingNuls(s: string): (n: nat)
    ensures n <= |s|
    ensures forall i :: 0 <= i < n ==> s[i] == NUL
    ensures n < |s| ==> s[n] != NUL
  {
    if s != [] && s[0] == NUL then 1 + LeadingNuls(s[1..]) else 0
  }

  /** The number of NULs s ends with. */
  function TrailingNuls(s: string): (n: nat)
    ensures n <= |s|
    ensures forall i :: |s| - n <= i < |s| ==> s[i] == NUL
    ensures n < |s| ==> s[|s| - 1 - n] != NUL
  {
    if s != [] && s[|s| - 1] == NUL then 1 + TrailingNuls(s[..|s| - 1]) else 0
  }

  /** strings.Trim(s, "\x00"): s is NUL padding, then r, then NUL padding, and r neither starts nor ends with NUL. */
  function TrimNul(s: string): (r: string)
    ensures NoNulEdges(r)
    ensures LeadingNuls(s) + |r| <= |s|
    ensures s == Nuls(LeadingNuls(s)) + r + Nuls(|s| - LeadingNuls(s) - |r|)
  {
    var lead := LeadingNuls(s);
    if lead == |s| then
      assert s == Nuls(lead) + [] + Nuls(0);
      []
    else
      var trail := TrailingNuls(s);
      assert s[lead] != NUL;
      var r := s[lead .. |s| - trail];
      assert s[..lead] == Nuls(lead);
      assert s[|s| - trail..] == Nuls(trail);
      assert s == s[..lead] + r + s[|s| - trail..];
      r
  }

  /** Trimming undoes NUL padding on both sides of a string that has no NUL at either end. */
  lemma TrimNulOfPadded(a: nat, p: string, b: nat)
    requires NoNulEdges(p)
    ensures TrimNul(Nuls(a) + p + Nuls(b)) == p
  {
    var s := Nuls(a) + p + Nuls(b);
    var r := TrimNul(s);
    var lead := LeadingNuls(s);
    if p != [] {
      assert s[a] == p[0];
      assert lead == a;
      assert s[a + |p| - 1] == p[|p| - 1];
      assert r == s[a .. a + |r|];
      assert p == s[a .. a + |p|];
    }
  }

  /** The buffer after SPI_GETDESKWALLPAPER: the first BufferLength units of the path, then zeros. */
  function WallpaperBuffer(wallpaper: string): (b: string)
    ensures |b| == BufferLength
    ensures forall i :: 0 <= i < BufferLength ==> b[i] == if i < |wallpaper| then wallpaper[i] else NUL
  {
    var n := if |wallpaper| < BufferLength then |wallpaper| else BufferLength;
    wallpaper[..n] + Nuls(BufferLength - n)
  }

  /** What Get returns on world w. */
  function GetResult(w: World): (path: string)
    ensures |path| <= BufferLength && NoNulEdges(path)
  {
    TrimNul(WallpaperBuffer(w.wallpaper))
  }

  /** A wallpaper path that fits the buffer and holds no NUL is read back unchanged. */
  lemma GetRoundTrip(w: World)
    requires NUL !in w.wallpaper && |w.wallpaper| <= BufferLength
    ensures GetResult(w) == w.wallpaper
  {
    var p := w.wallpaper;
    assert WallpaperBuffer(p) == Nuls(0) + p + Nuls(BufferLength - |p|);
    assert p != [] ==> p[0] in p && p[|p| - 1] in p;
    TrimNulOfPadded(0, p, BufferLength - |p|);
  }

  /** A wallpaper path longer than the buffer is read back cut to its first BufferLength units. */
  lemma LongPathTruncated(w: World)
    requires NUL !in w.wallpaper && |w.wallpaper| > BufferLength
    ensures GetResult(w) == w.wallpaper[..BufferLength]
  {
    var p := w.wallpaper[..BufferLength];
    assert WallpaperBuffer(w.wallpaper) == Nuls(0) + p + Nuls(0);
    assert p[0] in w.wallpaper && p[|p| - 1] in w.wallpaper;
    TrimNulOfPadded(0, p, 0);
  }

  // ---------------------------------------------------------------- SetFromFile

  /** runAsAdmin: relaunch elevated and end this process; log.Fatalf ends it with status 1. */
  function RunAsAdminStep(w: World, env: Env): (s: Step)
    ensures s.world.hives == w.hives && s.world.wallpaper == w.wallpaper
    ensures s.outcome.Exited?
    ensures s.outcome == Exited(0) <==> env.executable.Some? && env.runAsSucceeds
  {
    match env.executable
    case None => Step(w, Exited(1))
    case Some(exe) =>
      Step(w.(effects := w.effects + [StartElevated(exe)]), Exited(if env.runAsSucceeds then 0 else 1))
  }

  /** setLockscreen: without elevation, relaunch; otherwise the four writes, stopping at the first error. */
  function SetLockscreenStep(w: World, env: Env, filename: string): (s: Step)
    ensures s.world.wallpaper == w.wallpaper
    ensures s.outcome.Returned? <==> env.elevated
    ensures env.elevated ==> s.world.effects == w.effects
    ensures !env.elevated ==> s.world.hives == w.hives
  {
    if !env.elevated then RunAsAdminStep(w, env)
    else
      var a := RunOps(w.hives, env.faults, WriteOps(filename));
      Step(w.(hives := a.hives), Returned(a.err))
  }

  /** The SPI_SETDESKWALLPAPER call: logged, and reported by Get when the system applies it. */
  function DeskWallpaperSet(w: World, env: Env, filename: string): (r: World)
    ensures r.hives == w.hives
    ensures r.effects == w.effects + [SystemParametersInfo(0x14, 0, filename, 3)]
    ensures r.wallpaper == filename || r.wallpaper == w.wallpaper
    ensures r.wallpaper != w.wallpaper ==> env.spiApplies
  {
    World(w.hives, if env.spiApplies then filename else w.wallpaper, w.effects + [SetWallpaperCall(filename)])
  }

  /** SetFromFile on world w. */
  function SetFromFileStep(w: World, env: Env, filename: string): (s: Step)
    ensures s.outcome.Exited? <==> NUL !in filename && !Configured(w.hives, filename) && !env.elevated
    ensures s.world.wallpaper != w.wallpaper ==> s.outcome == Returned(None) && env.spiApplies && s.world.wallpaper == filename
    ensures |w.effects| <= |s.world.effects| <= |w.effects| + 1
  {
    if NUL in filename then Step(w, Returned(Some(InvalidArgument)))
    else
      var lock := if Configured(w.hives, filename) then Step(w, Returned(None))
                  else SetLockscreenStep(w, env, filename);
      if lock.outcome != Returned(None) then lock
      else Step(DeskWallpaperSet(lock.world, env, filename), Returned(None))
  }

  /**
   * A SetFromFile that returns nil leaves the lock-screen values configured for the
   * file and has made exactly one call: the wallpaper call with both flags.
   */
  lemma SetFromFileSuccess(w: World, env: Env, filename: string)
    requires SetFromFileStep(w, env, filename).outcome == Returned(None)
    ensures NUL !in filename
    ensures Configured(SetFromFileStep(w, env, filename).world.hives, filename)
    ensures SetFromFileStep(w, env, filename).world.effects == w.effects + [SetWallpaperCall(filename)]
    ensures SetFromFileStep(w, env, filename).world.wallpaper == if env.spiApplies then filename else w.wallpaper
  {
    if !Configured(w.hives, filename) {
      WriteEstablishesCheck(w.hives, env.faults, filename);
    }
  }

  /**
   * When elevated and the six lock-screen calls all succeed, SetFromFile returns nil
   * and makes the wallpaper call, whatever the check found and whatever that call does.
   */
  lemma SetFromFileWriteSucceeds(w: World, env: Env, filename: string)
    requires NUL !in filename && env.elevated
    requires RunOps(w.hives, env.faults, WriteOps(filename)).err == None
    ensures SetFromFileStep(w, env, filename).outcome == Returned(None)
    ensures SetFromFileStep(w, env, filename).world.effects == w.effects + [SetWallpaperCall(filename)]
  {
    if !Configured(w.hives, filename) {
      assert SetLockscreenStep(w, env, filename).outcome == Returned(None);
    }
  }

  /**
   * The wallpaper call's result is ignored: whether the system takes the new
   * wallpaper changes neither the outcome, the store nor the calls made.
   */
  lemma OutcomeIgnoresSpi(w: World, env: Env, filename: string)
    ensures var other := env.(spiApplies := !env.spiApplies);
      && SetFromFileStep(w, env, filename).outcome == SetFromFileStep(w, other, filename).outcome
      && SetFromFileStep(w, env, filename).world.hives == SetFromFileStep(w, other, filename).world.hives
      && SetFromFileStep(w, env, filename).world.effects == SetFromFileStep(w, other, filename).world.effects
  {
    var other := env.(spiApplies := !env.spiApplies);
    assert SetLockscreenStep(w, env, filename) == SetLockscreenStep(w, other, filename);
  }

  /** When the check already holds, SetFromFile neither asks for elevation nor writes the registry. */
  lemma ConfiguredSkipsLockScreen(w: World, env: Env, filename: string)
    requires NUL !in filename && Configured(w.hives, filename)
    ensures SetFromFileStep(w, env, filename) == Step(DeskWallpaperSet(w, env, filename), Returned(None))
    ensures SetFromFileStep(w, env, filename).world.hives == w.hives
  {
  }

  /** A second SetFromFile with the same path after one that returned nil writes nothing, elevated or not. */
  lemma SecondCallWriteFree(w: World, env1: Env, env2: Env, filename: string)
    requires SetFromFileStep(w, env1, filename).outcome == Returned(None)
    ensures var w1 := SetFromFileStep(w, env1, filename).world;
      && SetFromFileStep(w1, env2, filename).outcome == Returned(None)
      && SetFromFileStep(w1, env2, filename).world.hives == w1.hives
      && SetFromFileStep(w1, env2, filename).world.effects == w1.effects + [SetWallpaperCall(filename)]
  {
    SetFromFileSuccess(w, env1, filename);
  }

  /**
   * Without elevation, when the lock-screen values need writing, the process ends
   * after asking for an elevated relaunch; nothing is written and the wallpaper
   * call is never made.
   */
  lemma UnelevatedRelaunches(w: World, env: Env, filename: string)
    requires NUL !in filename && !Configured(w.hives, filename) && !env.elevated
    ensures var s := SetFromFileStep(w, env, filename);
      && s.outcome.Exited?
      && (s.outcome == Exited(0) <==> env.executable.Some? && env.runAsSucceeds)
      && s.world.hives == w.hives
      && s.world.wallpaper == w.wallpaper
      && s.world.effects == w.effects + (if env.executable.Some? then [StartElevated(env.executable.value)] else [])
  {
  }

  /**
   * An error from SetFromFile is the encoding error (nothing touched) or the error of
   * the first failing lock-screen call (the calls before it kept); either way the
   * wallpaper call is not made.
   */
  lemma SetFromFileError(w: World, env: Env, filename: string)
    requires SetFromFileStep(w, env, filename).outcome.Returned?
    requires SetFromFileStep(w, env, filename).outcome.err.Some?
    ensures var s := SetFromFileStep(w, env, filename);
      && s.world.wallpaper == w.wallpaper
      && s.world.effects == w.effects
      && (NUL in filename ==> s == Step(w, Returned(Some(InvalidArgument))))
      && (NUL !in filename ==>
            && env.elevated
            && exists i ::
                 && 0 <= i < |WriteOps(filename)|
                 && RunOps(w.hives, env.faults, WriteOps(filename)[..i]).err == None
                 && Applied(s.world.hives, s.outcome.err)
                    == ApplyOp(RunOps(w.hives, env.faults, WriteOps(filename)[..i]).hives, env.faults, WriteOps(filename)[i]))
  {
    if NUL !in filename {
      RunOpsFirstFailure(w.hives, env.faults, WriteOps(filename));
    }
  }

  /** SetFromFile changes no registry value other than the four lock-screen values. */
  lemma SetFromFileFrame(w: World, env: Env, filename: string, slot: Slot)
    requires slot !in {ImageSlot, StatusSlot, PathSlot, UrlSlot}
    ensures Lookup(SetFromFileStep(w, env, filename).world.hives, slot) == Lookup(w.hives, slot)
  {
    WriteFrame(w.hives, env.faults, filename, slot);
  }

  /** After a SetFromFile that returned nil and that the system applied, Get returns the same path. */
  lemma SetFromFileThenGet(w: World, env: Env, filename: string)
    requires SetFromFileStep(w, env, filename).outcome == Returned(None)
    requires env.spiApplies && |filename| <= BufferLength
    ensures GetResult(SetFromFileStep(w, env, filename).world) == filename
  {
    SetFromFileSuccess(w, env, filename);
    GetRoundTrip(SetFromFileStep(w, env, filename).world);
  }

  // ---------------------------------------------------------------- SetMode

  /** The calls SetMode makes before re-applying the wallpaper, in order. */
  function ModeOps(m: Mode): (ops: seq<Op>)
    ensures forall i :: 0 <= i < |ops| ==> KeyOf(ops[i]) == DesktopKey
    ensures forall i :: 0 <= i < |ops| && !ops[i].CreateKey? ==>
      && ops[i].SetString?
      && ops[i].slot in {TileSlot, StyleSlot}
      && ModeOf(if ops[i].slot == TileSlot then ops[i].s else TileFlag(m),
                if ops[i].slot == StyleSlot then ops[i].s else StyleCode(m)) == Some(m)
  {
    [CreateKey(DesktopKey), SetString(TileSlot, TileFlag(m)), SetString(StyleSlot, StyleCode(m))]
  }

  /** SetMode on world w: the two writes, then SetFromFile of what Get returns. */
  function SetModeStep(w: World, env: Env, m: Mode): (s: Step)
    ensures s.outcome.Exited? ==> !env.elevated
    ensures s.world.wallpaper != w.wallpaper ==> s.outcome == Returned(None) && env.spiApplies
  {
    var a := RunOps(w.hives, env.faults, ModeOps(m));
    var w' := w.(hives := a.hives);
    if a.err.Some? then Step(w', Returned(a.err))
    else SetFromFileStep(w', env, GetResult(w'))
  }

  lemma DesktopSlotsApart()
    ensures TileSlot != StyleSlot
    ensures TileSlot !in {ImageSlot, StatusSlot, PathSlot, UrlSlot}
    ensures StyleSlot !in {ImageSlot, StatusSlot, PathSlot, UrlSlot}
  {
    assert |TileSlot.name| != |StyleSlot.name|;
  }

  /**
   * Once both writes succeed, the desktop values encode the mode, whatever the
   * re-applied SetFromFile then does.
   */
  lemma SetModeWritesEncoding(w: World, env: Env, m: Mode)
    requires RunOps(w.hives, env.faults, ModeOps(m)).err == None
    ensures var h := SetModeStep(w, env, m).world.hives;
      && StringAt(h, TileSlot) == Some(TileFlag(m))
      && StringAt(h, StyleSlot) == Some(StyleCode(m))
      && ModeOf(StringAt(h, TileSlot).value, StringAt(h, StyleSlot).value) == Some(m)
  {
    var ops := ModeOps(m);
    var a := RunOps(w.hives, env.faults, ops);
    var w' := w.(hives := a.hives);
    DesktopSlotsApart();
    RunOpsLastWrite(w.hives, env.faults, ops, 1, TileSlot);
    RunOpsLastWrite(w.hives, env.faults, ops, 2, StyleSlot);
    SetFromFileFrame(w', env, GetResult(w'), TileSlot);
    SetFromFileFrame(w', env, GetResult(w'), StyleSlot);
    ModeOfEncoding(m);
  }

  /**
   * The desktop calls, when one of them fails: WallpaperStyle keeps its old value,
   * and TileWallpaper holds the new flag exactly when the WallpaperStyle write is
   * the one that failed. No other value changes.
   */
  lemma ModeOpsFailure(h: Hives, faults: Faults, m: Mode)
    requires RunOps(h, faults, ModeOps(m)).err.Some?
    ensures var a := RunOps(h, faults, ModeOps(m));
      && Lookup(a.hives, StyleSlot) == Lookup(h, StyleSlot)
      && (a.err == Some(SetValueFailed(StyleSlot)) ==> Lookup(a.hives, TileSlot) == Some(Sz(TileFlag(m))))
      && (a.err != Some(SetValueFailed(StyleSlot)) ==> Lookup(a.hives, TileSlot) == Lookup(h, TileSlot))
      && (forall slot :: slot != TileSlot ==> Lookup(a.hives, slot) == Lookup(h, slot))
  {
    DesktopSlotsApart();
    var ops := ModeOps(m);
    forall slot | slot != TileSlot && slot != StyleSlot
      ensures Lookup(RunOps(h, faults, ops).hives, slot) == Lookup(h, slot)
    {
      RunOpsFrame(h, faults, ops, slot);
    }
    assert ops[0..] == ops;
    RunOpsAt(h, faults, ops, 0);
    var a0 := ApplyOp(h, faults, ops[0]);
    if a0.err == None {
      RunOpsAt(a0.hives, faults, ops, 1);
      var a1 := ApplyOp(a0.hives, faults, ops[1]);
      if a1.err == None {
        RunOpsAt(a1.hives, faults, ops, 2);
        assert ops[3..] == [];
      }
    }
  }

  /**
   * A SetMode whose writes fail returns that error, makes no other call and never
   * changes WallpaperStyle; TileWallpaper is written first, so it already holds
   * the new flag exactly when the WallpaperStyle write is the one that failed.
   * Every other value is left as it was.
   */
  lemma SetModeStopsAtFirstFailure(w: World, env: Env, m: Mode)
    requires RunOps(w.hives, env.faults, ModeOps(m)).err.Some?
    ensures var s := SetModeStep(w, env, m);
      && s.outcome == Returned(RunOps(w.hives, env.faults, ModeOps(m)).err)
      && s.world.wallpaper == w.wallpaper && s.world.effects == w.effects
      && Lookup(s.world.hives, StyleSlot) == Lookup(w.hives, StyleSlot)
      && (s.outcome.err == Some(SetValueFailed(StyleSlot)) ==> Lookup(s.world.hives, TileSlot) == Some(Sz(TileFlag(m))))
      && (s.outcome.err != Some(SetValueFailed(StyleSlot)) ==> Lookup(s.world.hives, TileSlot) == Lookup(w.hives, TileSlot))
      && (forall slot :: slot != TileSlot ==> Lookup(s.world.hives, slot) == Lookup(w.hives, slot))
  {
    ModeOpsFailure(w.hives, env.faults, m);
  }

  /**
   * SetMode changes no registry value besides the two desktop values and the four
   * lock-screen values that the re-applied SetFromFile may write.
   */
  lemma SetModeFrame(w: World, env: Env, m: Mode, slot: Slot)
    requires slot !in {TileSlot, StyleSlot, ImageSlot, StatusSlot, PathSlot, UrlSlot}
    ensures Lookup(SetModeStep(w, env, m).world.hives, slot) == Lookup(w.hives, slot)
  {
    var ops := ModeOps(m);
    RunOpsFrame(w.hives, env.faults, ops, slot);
    var a := RunOps(w.hives, env.faults, ops);
    var w' := w.(hives := a.hives);
    if a.err == None {
      SetFromFileFrame(w', env, GetResult(w'), slot);
    }
  }

  // ---------------------------------------------------------------- the host

  /** Whether order lists each element of keys exactly once (one run of Go's map iteration). */
  ghost predicate Enumerates(order: seq<string>, keys: set<string>)
  {
    && (forall x :: x in order <==> x in keys)
    && (forall i, j :: 0 <= i < j < |order| ==> order[i] != order[j])
  }

  /** One iteration order of the expected-values table; the check's answer does not depend on it. */
  lemma FixedOrderEnumerates(filename: string)
    ensures Enumerates([PersonalizationPath, CspPath], ExpectedValues(filename).Keys)
    ensures Enumerates(["LockScreenImage"], ExpectedValues(filename)[PersonalizationPath].Keys)
    ensures Enumerates(["LockScreenImageStatus", "LockScreenImagePath", "LockScreenImageUrl"],
                       ExpectedValues(filename)[CspPath].Keys)
  {
    SlotsDistinct();
  }

  class Host {
    var hives: Hives
    var wallpaper: string
    var effects: seq<Effect>

    constructor (hives0: Hives, wallpaper0: string)
      ensures Snapshot() == World(hives0, wallpaper0, [])
    {
      hives, wallpaper, effects := hives0, wallpaper0, [];
    }

    function Snapshot(): World
      reads this
    {
      World(hives, wallpaper, effects)
    }

    /** One registry call against the abstract store. */
    method Apply(op: Op, faults: Faults) returns (err: Option<Error>)
      modifies this
      ensures Applied(hives, err) == ApplyOp(old(hives), faults, op)
      ensures wallpaper == old(wallpaper) && effects == old(effects)
    {
      var a := ApplyOp(hives, faults, op);
      hives, err := a.hives, a.err;
    }

    /** SystemParametersInfoW(SPI_GETDESKWALLPAPER, 256, buffer, 0) on a zeroed buffer. */
    method ReadDeskWallpaper(buffer: array<char>)
      requires buffer.Length == BufferLength
      requires forall i :: 0 <= i < buffer.Length ==> buffer[i] == NUL
      modifies buffer
      ensures buffer[..] == WallpaperBuffer(wallpaper)
    {
      var n := if |wallpaper| < BufferLength then |wallpaper| else BufferLength;
      forall i | 0 <= i < n {
        buffer[i] := wallpaper[i];
      }
      assert buffer[..] == wallpaper[..n] + Nuls(BufferLength - n);
    }

    /** Get: never an error; at most BufferLength units, with no NUL at either end. */
    method Get() returns (path: string, err: Option<Error>)
      ensures err == None
      ensures |path| <= BufferLength && NoNulEdges(path)
      ensures path == GetResult(Snapshot())
    {
      var buffer := new char[BufferLength](_ => NUL);
      ReadDeskWallpaper(buffer);
      path := TrimNul(buffer[..]);
      err := None;
    }

    /**
     * checkRegistryValues: walks the expected-values table in the given iteration
     * order and answers false at the first key that does not open or value that does
     * not read back as expected. The answer is Configured whatever the order.
     */
    method CheckRegistryValues(filename: string, keyOrder: seq<string>, valueOrder: map<string, seq<string>>)
      returns (ok: bool)
      requires Enumerates(keyOrder, ExpectedValues(filename).Keys)
      requires forall path :: path in ExpectedValues(filename) ==>
        path in valueOrder && Enumerates(valueOrder[path], ExpectedValues(filename)[path].Keys)
      ensures ok == Configured(hives, filename)
    {
      var expected := ExpectedValues(filename);
      for i := 0 to |keyOrder|
        invariant forall k :: 0 <= k < i ==> KeyMatches(hives, keyOrder[k], expected[keyOrder[k]])
      {
        var path := keyOrder[i];
        var key := KeyRef(LocalMachine, path);
        assert path in expected;
        if key !in hives {
          assert !KeyMatches(hives, path, expected[path]);
          return false;  // registry.OpenKey fails
        }
        var values := hives[key];
        var want := expected[path];
        var names := valueOrder[path];
        for j := 0 to |names|
          invariant forall k :: 0 <= k < j ==> Matches(values, names[k], want[names[k]])
        {
          var name := names[j];
          match want[name] {
            case ExpectString(s) =>
              var val := GetStringValue(values, name);
              if val.None? || val.value != s {
                return false;
              }
            case ExpectInteger(n) =>
              var val := GetIntegerValue(values, name);
              if val.None? || val.value != n {
                return false;
              }
          }
        }
      }
      return true;
    }

    /** runAsAdmin: every path ends the process. */
    method RunAsAdmin(env: Env) returns (outcome: Outcome)
      modifies this
      ensures Snapshot() == RunAsAdminStep(old(Snapshot()), env).world
      ensures outcome == RunAsAdminStep(old(Snapshot()), env).outcome
    {
      if env.executable.None? {
        return Exited(1);  // log.Fatalf
      }
      effects := effects + [StartElevated(env.executable.value)];
      if !env.runAsSucceeds {
        return Exited(1);  // log.Fatalf
      }
      return Exited(0);  // os.Exit(0)
    }

    /** setLockscreen. */
    method SetLockscreen(filename: string, env: Env) returns (outcome: Outcome)
      modifies this
      ensures Snapshot() == SetLockscreenStep(old(Snapshot()), env, filename).world
      ensures outcome == SetLockscreenStep(old(Snapshot()), env, filename).outcome
    {
      if !env.elevated {
        // runAsAdmin never returns, so the `return nil` after it is never reached.
        outcome := RunAsAdmin(env);
        return;
      }
      ghost var start := hives;
      RunOpsAppend(start, env.faults, PolicyOps(filename), CspOps(filename));
      var err := SetPolicyValue(filename, env.faults);
      if err.Some? {
        return Returned(err);
      }
      err := SetCspValues(filename, env.faults);
      return Returned(err);
    }

    /** The first block of setLockscreen: create the Personalization policy key, write its image value. */
    method SetPolicyValue(filename: string, faults: Faults) returns (err: Option<Error>)
      modifies this
      ensures Applied(hives, err) == RunOps(old(hives), faults, PolicyOps(filename))
      ensures wallpaper == old(wallpaper) && effects == old(effects)
    {
      // ops[k..] is what is left to run; `before` is the store before call k.
      ghost var ops, before := PolicyOps(filename), hives;
      assert ops[0..] == ops;
      err := Apply(CreateKey(PersonalizationKey), faults);
      RunOpsAt(before, faults, ops, 0);
      if err.Some? {
        return;
      }
      before := hives;
      err := Apply(SetString(ImageSlot, filename), faults);
      RunOpsAt(before, faults, ops, 1);
      assert ops[2..] == [];
    }

    /** The second block of setLockscreen: create the PersonalizationCSP key, write its three values. */
    method SetCspValues(filename: string, faults: Faults) returns (err: Option<Error>)
      modifies this
      ensures Applied(hives, err) == RunOps(old(hives), faults, CspOps(filename))
      ensures wallpaper == old(wallpaper) && effects == old(effects)
    {
      ghost var ops, before := CspOps(filename), hives;
      assert ops[0..] == ops;
      err := Apply(CreateKey(CspKey), faults);
      RunOpsAt(before, faults, ops, 0);
      if err.Some? {
        return;
      }
      before := hives;
      err := Apply(SetDWord(StatusSlot, 1), faults);
      RunOpsAt(before, faults, ops, 1);
      if err.Some? {
        return;
      }
      before := hives;
      err := Apply(SetString(PathSlot, filename), faults);
      RunOpsAt(before, faults, ops, 2);
      if err.Some? {
        return;
      }
      before := hives;
      err := Apply(SetString(UrlSlot, filename), faults);
      RunOpsAt(before, faults, ops, 3);
      assert ops[4..] == [];
    }

    /** SystemParametersInfoW(SPI_SETDESKWALLPAPER, 0, path, SPIF_UPDATEINIFILE | SPIF_SENDWININICHANGE); its result is ignored. */
    method SetDeskWallpaper(filename: string, env: Env)
      modifies this
      ensures Snapshot() == DeskWallpaperSet(old(Snapshot()), env, filename)
    {
      effects := effects + [SetWallpaperCall(filename)];
      if env.spiApplies {
        wallpaper := filename;
      }
    }

    /** SetFromFile. */
    method SetFromFile(filename: string, env: Env) returns (outcome: Outcome)
      modifies this
      ensures Snapshot() == SetFromFileStep(old(Snapshot()), env, filename).world
      ensures outcome == SetFromFileStep(old(Snapshot()), env, filename).outcome
    {
      if NUL in filename {
        return Returned(Some(InvalidArgument));  // syscall.UTF16PtrFromString
      }
      FixedOrderEnumerates(filename);
      var configured := CheckRegistryValues(filename, [PersonalizationPath, CspPath],
        map[PersonalizationPath := ["LockScreenImage"],
            CspPath := ["LockScreenImageStatus", "LockScreenImagePath", "LockScreenImageUrl"]]);
      if !configured {
        var lock := SetLockscreen(filename, env);
        if lock != Returned(None) {
          return lock;
        }
      }
      SetDeskWallpaper(filename, env);
      return Returned(None);
    }

    /** SetMode. */
    method SetMode(mode: Mode, env: Env) returns (outcome: Outcome)
      modifies this
      ensures Snapshot() == SetModeStep(old(Snapshot()), env, mode).world
      ensures outcome == SetModeStep(old(Snapshot()), env, mode).outcome
    {
      ghost var ops, before := ModeOps(mode), hives;
      assert ops[0..] == ops;
      var err := Apply(CreateKey(DesktopKey), env.faults);
      RunOpsAt(before, env.faults, ops, 0);
      if err.Some? {
        return Returned(err);
      }
      var tile := TileFlag(mode);
      before := hives;
      err := Apply(SetString(TileSlot, tile), env.faults);
      RunOpsAt(before, env.faults, ops, 1);
      if err.Some? {
        return Returned(err);
      }
      var style := StyleCode(mode);
      before := hives;
      err := Apply(SetString(StyleSlot, style), env.faults);
      RunOpsAt(before, env.faults, ops, 2);
      if err.Some? {
        return Returned(err);
      }
      assert ops[3..] == [];
      // Get's error is always nil, so SetMode's check of it never fires.
      var path, _ := Get();
      outcome := SetFromFile(path, env);
    }
  }
}

=== FILE: wrappers.dfy ===
/** Optional values, used for registry reads that can fail and for Go's nil-or-error results. */
module Wrappers {

  datatype Option<+T> = None | Some(value: T)
}
